=== FILE: README.md ===
# Terminal Package Store: a verified model of its core

Terminal Package Store is a terminal front end for `winget`, the Windows package manager. It
lists the packages with pending upgrades and lets the user upgrade or uninstall one of them or
upgrade all of them. The repository also has a release check against GitHub, `check_for_updates`
(main/update_checker.py), which main/main.py does not call. This project models three parts in
Dafny and proves properties about them.

- **The upgrade-table parser** (`UpgradeParser`, with the string operations in `Text` and a
  generic filter in `Collections`). This is the text-processing part of
  `get_upgradable_packages`. The tool's standard output is stripped and split into lines.
  Everything up to the first line that is exactly the 119-dash column underline is ignored.
  Every later line with at least five whitespace-separated tokens becomes a `Package`:
  - the last four tokens are read from the right as source, available version, version and id;
  - the name is the single-space join of the tokens in front of them.

  A non-zero exit of the tool and a missing tool both give an empty list.
- **The release check** (`UpdateChecker`). This is `check_for_updates` after the HTTP request.
  - A missing `tag_name` defaults to `v0.0.0`.
  - `lstrip('v')` removes every leading `v`.
  - Both versions are read as dot-separated integer tuples and compared in Python's tuple order.
  - The result is `update_available` or `latest` with the stripped tag, or `error` with a message.
- **The application state machine** (`PackageStore`). Its state is the `packages` list and the
  `selected_package` of `TerminalPackageStore`. It covers `load_data`,
  `on_data_table_row_selected`, `action_update_package`, `action_update_all`,
  `action_uninstall_package` and `on_button_pressed`, plus mounting.
  - Every `winget` invocation is a `Command` appended to a call log, the list call included.
  - The n-th invocation of a session (counting from 0) receives `env(n)`. `env` is an oracle
    standing for everything the tool could print or raise.
  - The invariant `Valid` says three things: the selection is one of the listed packages; every
    listed package is a record the parser can produce; the reload counter equals the number of
    list calls in the log.

Three behaviours of the code are worth stating plainly:
- A single upgrade or uninstall reloads the list only when the call succeeds
  (main/main.py:117 and 193). A failed call or a missing tool does not reload.
- The parser does not remove repeated ids, and row selection picks the first package with the
  row's id (main/main.py:99). A list that repeats an id makes the table's `add_row` raise
  (main/main.py:66), which the model does not follow (see "Left out").
- All leading `v` characters of the release tag are removed, not just one
  (main/update_checker.py:21).

## Model

| member | source | states |
|---|---|---|
| Text.IsSpace | app_data_parser.py:28 | `str.isspace()` on one code point holds exactly for the 29 code points Python treats as whitespace, listed one by one in `Whitespace` |
| Text.Strip | app_data_parser.py:28 | `str.strip()`: the result is empty exactly when the input is all whitespace (Python's 29 `isspace` code points); otherwise it neither starts nor ends with whitespace |
| Text.StripIsMiddle | app_data_parser.py:28 | what `strip` removes is whitespace at the two ends only: the result is a contiguous middle piece of the input |
| Text.StripUnchanged | app_data_parser.py:51 | `name.strip()` changes nothing on a string that neither starts nor ends with whitespace, such as a single-space join of words |
| Text.Tokens | app_data_parser.py:40 | `str.split()`: every token is a non-empty run of non-whitespace characters; there are no tokens exactly when the line is blank (which runs they are is stated by the three lemmas below) |
| Text.TokensAfterSpace | app_data_parser.py:40 | whitespace of any length in front of a string produces no token |
| Text.TokensOfWordThen | app_data_parser.py:40 | a word followed by whitespace or by nothing is the first token, and splitting resumes right after it |
| Text.TokensOfPadded | app_data_parser.py:40 | words separated by whitespace runs of any non-zero length, with any whitespace before and after, split into exactly those words |
| Text.TokensOfJoin | app_data_parser.py:40-48 | splitting a single-space join of words gives back exactly those words |
| Text.Join | app_data_parser.py:48 | `sep.join(ws)` of a non-empty list is as long as the pieces together plus one separator between each pair of neighbours |
| Text.Split | app_data_parser.py:28 | `split('\n')` yields at least one piece and no piece contains the separator |
| Text.SplitJoin | app_data_parser.py:28 | splitting the join of separator-free pieces gives back the pieces |
| Text.JoinSplit | app_data_parser.py:28 | joining the pieces of a split with the separator restores the string |
| Text.Repeat | app_data_parser.py:32 | `c * n` has length n and every character is c; the column underline is `Repeat('-', 119)` |
| UpgradeParser.IndexOf | app_data_parser.py:31-34 | `lines.index(separator)`: absent exactly when the separator is not among the lines; otherwise the position of its first occurrence |
| UpgradeParser.RecordOf | app_data_parser.py:43-56 | the last four tokens become id, version, available version and source, and the name joins the rest; the record's tokens are exactly the line's tokens |
| UpgradeParser.ParseLine | app_data_parser.py:37-56 | a line yields a record exactly when it has at least five tokens, so blank lines yield none; the name is a non-empty join of words and the four fields are whitespace-free |
| UpgradeParser.ParseRows | app_data_parser.py:36-58 | at most one record per line; no records exactly when no line has five tokens; every record is one the parser can produce |
| UpgradeParser.ParseLines | app_data_parser.py:31-36 | without the separator line the result is empty |
| UpgradeParser.ParseOutput | app_data_parser.py:28-36 | blank or whitespace-only output gives no packages; every package it gives is a record the parser can produce |
| UpgradeParser.GetUpgradablePackages | app_data_parser.py:19-65 | `CalledProcessError` and `FileNotFoundError` give an empty list; every record of a successful run is well-formed |
| UpgradeParser.FirstSeparatorStartsBody | app_data_parser.py:31-36 | only the first separator counts, and nothing in front of it is parsed |
| UpgradeParser.ParseRowsAppend | app_data_parser.py:36-58 | records come out in line order: parsing distributes over concatenation of lines |
| UpgradeParser.ParseRowsSingle | app_data_parser.py:40-50 | one line gives exactly one record when it has at least five tokens and none otherwise |
| UpgradeParser.BlankLineSkipped | app_data_parser.py:37-38 | a blank or whitespace-only line gives no record |
| UpgradeParser.FieldsFromTheRight | app_data_parser.py:43-51 | source, available version, version and id are the last, 2nd-last, 3rd-last and 4th-last tokens; the name is the single-space join of the others and is never empty |
| UpgradeParser.RecordsComeFromLines | app_data_parser.py:36-56 | every record is the parse of one line of the body |
| UpgradeParser.ParseLineByTokens | app_data_parser.py:40-56 | a line whose tokens are name words followed by four fields parses to exactly that record |
| UpgradeParser.LineRoundTrip | app_data_parser.py:40-56 | a space-separated line of words, the last four being the fields, parses back to the joined name and those four fields |
| UpgradeParser.PaddedLineRoundTrip | app_data_parser.py:36-56 | a row as the tool prints it, columns padded by whitespace runs of any length and whitespace around the line, parses to its four fields and to the name words joined by single spaces |
| UpgradeParser.RowRoundTrip | app_data_parser.py:40-56 | every record the parser can produce is reproduced from its formatted line |
| UpgradeParser.ParseFormattedRows | app_data_parser.py:36-58 | formatted lines of such records parse back to the same records, in order |
| UpgradeParser.TableRoundTrip | app_data_parser.py:21-58 | a whole rendered table parses back to the records. The table is: header lines that hold no newline and are not the separator, the first of them starting with a non-whitespace character so that `strip()` leaves it alone; then the separator; then one line per record |
| UpdateChecker.StripLeadingV | main/update_checker.py:21 | `lstrip('v')`: the input is some number of `v`s followed by the result, and the result does not start with `v` |
| UpdateChecker.StripVs | main/update_checker.py:21 | any number of leading `v`s in front of a version are all removed |
| UpdateChecker.ParseSegment | main/update_checker.py:23-24 | `int(segment)` succeeds exactly on non-empty digit strings |
| UpdateChecker.SegmentRoundTrip | main/update_checker.py:23-24 | reading the decimal form of a number gives the number |
| UpdateChecker.LeadingZeroIgnored | main/update_checker.py:23-24 | a leading zero does not change a segment's value: `1.02` reads as `(1, 2)` |
| UpdateChecker.ParseSegments | main/update_checker.py:23-24 | `tuple(map(int, segments))` succeeds exactly when every segment is an integer, then with their values in order; otherwise it reports the first bad segment |
| UpdateChecker.SegmentsAreDigits | main/update_checker.py:23-24 | the segments convert exactly when each one is a non-empty ASCII digit string |
| UpdateChecker.ParseVersion | main/update_checker.py:23-24 | `tuple(map(int, s.split('.')))` succeeds exactly when every dot-separated piece is a non-empty digit string, with one value per piece, so never on the empty string; a failure names one of the pieces, one that is not an integer |
| UpdateChecker.VersionRoundTrip | main/update_checker.py:23-24 | a dotted version formatted from a tuple reads back as that tuple |
| UpdateChecker.EmptySegmentFails | main/update_checker.py:23-24 | a version with an empty segment (`1..2`, `1.`, the empty string) does not parse |
| UpdateChecker.TupleLess | main/update_checker.py:26 | the tuple comparison never holds between equal tuples (its full meaning is `TupleLessIsLexLess`) |
| UpdateChecker.TupleLessIsLexLess | main/update_checker.py:26 | the recursive tuple comparison is exactly lexicographic order, in both directions: it holds iff the tuples differ first at a smaller element, or the first is a proper prefix of the second |
| UpdateChecker.GreaterHeadNotLex | main/update_checker.py:26 | a larger first element rules out lexicographic precedence |
| UpdateChecker.LexLessOfTails | main/update_checker.py:26 | with equal first elements, precedence of the tails gives precedence of the tuples |
| UpdateChecker.LexLessToTails | main/update_checker.py:26 | with equal first elements, precedence of the tuples gives precedence of the tails |
| UpdateChecker.TupleLessIrreflexive | main/update_checker.py:26 | no version is newer than itself |
| UpdateChecker.TupleLessTransitive | main/update_checker.py:26 | the version order is transitive |
| UpdateChecker.TupleLessTotal | main/update_checker.py:26 | two different versions are ordered one way, and never both ways |
| UpdateChecker.PrefixIsLess | main/update_checker.py:26 | a proper prefix is smaller: `(1, 2) < (1, 2, 0)` |
| UpdateChecker.CheckForUpdates | main/update_checker.py:14-46 | an HTTP status error gives an error naming the status code; any other request failure gives `Network Error: ` and its text; for a fetched release, the result is an error exactly when one of the two versions does not parse. That error is the model's `invalid literal` message (`InvalidLiteral`) for the running version's first bad segment, or else the tag's. Otherwise the result is `update_available` exactly when the running tuple precedes the released one lexicographically, and the reported version is the default-or-given tag with all leading `v`s removed. Every error message is non-empty, and all but the status one start with `Network Error: ` |
| UpdateChecker.CompareVersions | main/update_checker.py:21-35 | for any two strings, canonical or not (e.g. `1.02`): an error exactly when a version does not parse, naming the running version's bad segment first; otherwise `update_available` exactly when the running tuple precedes the released one lexicographically, always with the stripped tag |
| UpdateChecker.InvalidLiteral | main/update_checker.py:42-46 | the message for a non-integer segment starts with `Network Error: `, is at most 200 characters longer than the fixed prefix, and ends with the raw segment between single quotes when the quoted segment fits in 200 characters; a longer one shows only its first 200 characters, with no closing quote |
| UpdateChecker.CompareReleases | main/update_checker.py:21-35 | `update_available` exactly when the released tuple is greater than the running one, otherwise `latest`; either way with the stripped tag |
| UpdateChecker.SameVersionIsLatest | main/update_checker.py:26-35 | equal versions report `latest` |
| UpdateChecker.LongerReleaseIsNewer | main/update_checker.py:21-30 | release `v1.2.0` is an update for a running `1.2` |
| UpdateChecker.MissingTagIsZero | main/update_checker.py:21 | a release without `tag_name` is treated as `v0.0.0` |
| UpdateChecker.MalformedVersionFails | main/update_checker.py:23-46 | a non-integer segment in either version gives `error`, never an exception |
| PackageStore.ArgvInjective | main/main.py:111 | the list, upgrade (`winget upgrade --id ID --interactive --accept-package-agreements`) and uninstall (`winget uninstall --id ID --interactive`, line 185) command lines are pairwise different and determine the id |
| PackageStore.Argv | main/main.py:111 | every call runs `winget`, with subcommand `uninstall` for the uninstall and `upgrade` otherwise; the list call (app_data_parser.py:22) has no options; upgrade (lines 111 and 151) and uninstall (line 185) name the package with `--id` and run `--interactive`, and only the upgrade adds `--accept-package-agreements` |
| PackageStore.OutcomeOf | main/main.py:109-124 | a normal exit is a success, `CalledProcessError` a failure and `FileNotFoundError` a missing tool, each exactly |
| PackageStore.LoadData | main/main.py:49-81 | one list call is made; the list becomes the parse of that call's output; the first package is selected, or none when the list is empty; the invariant is kept |
| PackageStore.FindById | main/main.py:99 | `next(p for p in packages if p.id == key)`: nothing exactly when no package has the id; otherwise the first package with it |
| PackageStore.SelectRow | main/main.py:97-101 | the selection becomes the first package whose id is the row key, or none exactly when no package has it; list and log unchanged |
| PackageStore.RunThenReload | main/main.py:109-124 | one call; the report is its outcome; only a success reloads the list; otherwise only the call is logged |
| PackageStore.UpdatePackage | main/main.py:104-124 | the upgrade command for the id is called first; a failure or a missing tool leaves list and selection as they were; a success reloads from the next call |
| PackageStore.UninstallPackage | main/main.py:176-200 | the same with the uninstall command |
| PackageStore.UpgradeCalls | main/main.py:140-153 | one upgrade command per package of the snapshot, in snapshot order, and no list call |
| PackageStore.UpgradeLoop | main/main.py:136-165 | the loop makes at most one call per package; it stops only at a call that finds the tool missing; otherwise it covers every package; successes plus failures equal the counted calls |
| PackageStore.UpgradeLoopCounts | main/main.py:149-162 | `success_count` and `failure_count` are the numbers of counted calls that succeeded and that failed, and none of the counted calls found the tool missing |
| PackageStore.UpgradeLoopCompletes | main/main.py:163-165 | the loop runs to the end exactly when no call finds the tool missing |
| PackageStore.UpdateAll | main/main.py:126-174 | with no packages nothing is called or reloaded; otherwise the batch either completes or aborts; the invariant is kept and the log only grows |
| PackageStore.UpdateAllCompletes | main/main.py:142-174 | the batch completes exactly when none of its calls finds the tool missing |
| PackageStore.UpdateAllCompleted | main/main.py:136-174 | a completed batch calls upgrade once per snapshot package, in order, then reloads once; its counters are the numbers of successes and failures and add up to the number of packages |
| PackageStore.UpdateAllStopped | main/main.py:163-165 | an aborted batch made the upgrade calls of a prefix of the snapshot, the last of which found the tool missing and none before it did; there is no reload and list and selection are unchanged |
| PackageStore.PressButton | main/main.py:203-223 | update-all and refresh need no selection; update and uninstall without a selection call nothing; with one they act on its id; the invariant is kept |
| PackageStore.Handle | main/main.py:46-47 | mounting makes one list call and takes the list from its output; a row selection makes no call and keeps the list; every event keeps the invariant and only appends to the log |
| PackageStore.Run | main/main.py:9-223 | any sequence of events delivered to the application keeps the invariant and only appends to the call log |
| PackageStore.SessionKeepsInvariant | main/main.py:14-15 | every session from the initial empty state keeps the invariant |

## Left out

- Running `winget`, capturing its output and the `print` diagnostics are left out. The tool is the oracle `env`: call n of a session gets `env(n)`. `OutcomeOf` maps its output to success, non-zero exit or missing executable.
- The HTTP request is left out: `httpx`, `async`/`await`, the 10-second timeout, `raise_for_status` and `response.json()`. The fetch is an abstract `Fetch` value. A body that is not a JSON object, or a `tag_name` that is not a string, is folded into `RequestFailed` with the exception's text.
- All Textual UI work is left out: widget composition, CSS, table rows, cursor and focus, `display` toggling and `_update_detail_pane`. The status texts an action writes are abstracted to a `Report` value.
- The `q` quit binding, `compose` and `run_app` are left out, because they are UI plumbing.
- `main/config_loader.py` is not part of this model. It is file input plus key checks.
- PackageStore.UpdateAll: `call_after_refresh(self.load_data)` is modelled as a reload at the end of the action. The UI frame between the two is not modelled.
- PackageStore.UninstallPackage: the reload scheduled by `call_after_refresh` is likewise modelled as immediate.
- The counters carried by `BatchAborted` are the loop's internal counts. The code does not display them after an abort.
- UpdateChecker.ParseSegment: accepts only non-empty ASCII digit strings. Python's `int()` also accepts surrounding whitespace, a sign, underscores between digits and non-ASCII digits, and it refuses strings of more than 4300 digits (the default integer string conversion limit); these are deliberately not modelled.
- UpdateChecker.InvalidLiteral: CPython formats the bad segment with `%.200R`. The model keeps the 200-character cut but not `repr`'s escaping: backslashes and control or non-printable characters are escaped (a tab becomes `\t`), and the quotes become double quotes when the segment contains a single quote. The model shows the raw segment between single quotes.
- UpdateChecker.CheckForUpdates: its error message for an unparsable version is `InvalidLiteral`'s, so it has the same gap: no `repr` escaping and no switch to double quotes.
- PackageStore.LoadData: when the parsed list repeats an id, `table.add_row(..., key=pkg.id)` (main/main.py:66) raises Textual's `DuplicateKey`, which the code does not handle. For a single upgrade, the reload runs inside the `try` (main/main.py:117), whose handlers catch only `CalledProcessError` and `FileNotFoundError`. For an uninstall and for upgrade-all, `call_after_refresh` defers the reload (main/main.py:193 and 174), so it runs later, outside any `try`. `self.packages` has already been replaced (main/main.py:50), but `selected_package` keeps its old, possibly stale value (main/main.py:73). The model loads such a list and selects its first package instead.
- UpdateChecker.CheckForUpdates: an HTTP status code is any natural number, not only the non-2xx statuses `raise_for_status` rejects.
- Text.Strip: whitespace is Python's `str.isspace` set. Unicode normalisation and surrogate handling are not modelled.

=== FILE: collections.dfy ===
/** Sequence combinators shared by the parser and the store. */
module Collections {
  import opened Wrappers

  /** Keeps `f(x).value` for every `x` of `xs` on which `f` gives a value, in the order of `xs`:
      the shape of a Python loop that appends to a list only when a check passes. */
  function FilterMap<A, B>(f: A -> Option<B>, xs: seq<A>): (r: seq<B>)
    ensures |r| <= |xs|
    ensures r == [] <==> forall i :: 0 <= i < |xs| ==> f(xs[i]).None?
  {
    if |xs| == 0 then []
    else
      var tail := FilterMap(f, xs[1..]);
      assert forall i :: 0 <= i < |xs| - 1 ==> xs[1..][i] == xs[i + 1];
      match f(xs[0])
      case Some(y) => [y] + tail
      case None => tail
  }

  /** Order is kept: filtering a concatenation concatenates the filtered parts. */
  lemma {:induction false} FilterMapAppend<A, B>(f: A -> Option<B>, xs: seq<A>, ys: seq<A>)
    ensures FilterMap(f, xs + ys) == FilterMap(f, xs) + FilterMap(f, ys)
    decreases |xs|
  {
    if |xs| == 0 {
      assert xs + ys == ys;
    } else {
      assert (xs + ys)[0] == xs[0];
      assert (xs + ys)[1..] == xs[1..] + ys;
      FilterMapAppend(f, xs[1..], ys);
    }
  }

  /** One element contributes its value when `f` gives one, and nothing otherwise. */
  lemma {:induction false} FilterMapSingle<A, B>(f: A -> Option<B>, x: A)
    ensures FilterMap(f, [x]) == (if f(x).Some? then [f(x).value] else [])
  {
    assert [x][1..] == [];
  }

  /** Every kept value is the value of `f` on some element. */
  lemma {:induction false} FilterMapOrigin<A, B>(f: A -> Option<B>, xs: seq<A>, k: nat)
    requires k < |FilterMap(f, xs)|
    ensures exists i :: 0 <= i < |xs| && f(xs[i]) == Some(FilterMap(f, xs)[k])
    decreases |xs|
  {
    var tail := FilterMap(f, xs[1..]);
    if f(xs[0]).Some? && k == 0 {
      assert f(xs[0]) == Some(FilterMap(f, xs)[k]);
    } else {
      var j := if f(xs[0]).Some? then k - 1 else k;
      assert FilterMap(f, xs)[k] == tail[j];
      FilterMapOrigin(f, xs[1..], j);
      var i :| 0 <= i < |xs[1..]| && f(xs[1..][i]) == Some(tail[j]);
      assert f(xs[i + 1]) == Some(FilterMap(f, xs)[k]);
    }
  }

  /** When `f` gives a value on every element, the values are exactly the `ys` it gives. */
  lemma {:induction false} FilterMapAllSome<A, B>(f: A -> Option<B>, xs: seq<A>, ys: seq<B>)
    requires |xs| == |ys|
    requires forall i :: 0 <= i < |xs| ==> f(xs[i]) == Some(ys[i])
    ensures FilterMap(f, xs) == ys
    decreases |xs|
  {
    if |xs| > 0 {
      FilterMapAllSome(f, xs[1..], ys[1..]);
      assert [ys[0]] + ys[1..] == ys;
    }
  }
}

=== FILE: package_store.dfy ===
/**
 The `TerminalPackageStore` application as a state machine: the package list and the selected
 package, driven by mounting, row selection and button presses. Every `winget` invocation is
 recorded in a log; the n-th invocation of the session (counting from 0) receives `env(n)`,
 so `|log|` is both the number of calls made and the position of the next outcome.
 */
module PackageStore {
  import opened Wrappers
  import opened UpgradeParser

  /** The `winget` invocations the application makes. */
  datatype Command = ListUpgrades | Upgrade(id: string) | Uninstall(id: string)

  /** The argument vector handed to `subprocess.run` for each command: the list call has no
      options; a package call names its package with `--id` and runs interactively, and only
      the upgrade accepts the package agreements. */
  function Argv(c: Command): (argv: seq<string>)
    ensures |argv| >= 2 && argv[0] == "winget"
    ensures c.ListUpgrades? <==> |argv| == 2
    ensures c.Uninstall? <==> argv[1] == "uninstall"
    ensures !c.Uninstall? ==> argv[1] == "upgrade"
    ensures !c.ListUpgrades? ==> |argv| >= 5 && argv[2..5] == ["--id", c.id, "--interactive"]
    ensures c.Upgrade? <==> |argv| == 6 && argv[5] == "--accept-package-agreements"
  {
    match c
    case ListUpgrades => ["winget", "upgrade"]
    case Upgrade(id) => ["winget", "upgrade", "--id", id, "--interactive", "--accept-package-agreements"]
    case Uninstall(id) => ["winget", "uninstall", "--id", id, "--interactive"]
  }

  /** Different commands are different command lines, so a log of commands records exactly
      the argument vectors that were run. */
  lemma {:induction false} ArgvInjective(a: Command, b: Command)
    requires Argv(a) == Argv(b)
    ensures a == b
  {
  }

  /** The outcomes of the session's `winget` invocations, by position. */
  type Env = nat -> ToolOutput

  /** How `subprocess.run(..., check=True)` ended: normally, with `CalledProcessError`, or with
      `FileNotFoundError`. */
  datatype CallOutcome = Succeeded | Failed | ToolNotFound

  function OutcomeOf(o: ToolOutput): (r: CallOutcome)
    ensures r == Succeeded <==> o.Completed?
    ensures r == Failed <==> o.CalledProcessError?
    ensures r == ToolNotFound <==> o.FileNotFound?
  {
    match o
    case Completed(_) => Succeeded
    case CalledProcessError(_) => Failed
    case FileNotFound => ToolNotFound
  }

  /** The application's fields, plus the call log and the number of list reloads. */
  datatype Store = Store(packages: seq<Package>, selected: Option<Package>, log: seq<Command>, refreshes: nat)

  /** The class attributes before mounting: no packages and no selection. */
  const Initial: Store := Store([], None, [], 0)

  /** What an action reports to the user, standing for the status texts it writes. */
  datatype Report =
    | Reloaded
    | NeedSelection
    | NothingToUpdate
    | Single(outcome: CallOutcome)
    | BatchDone(successes: nat, failures: nat)
    | BatchAborted(successes: nat, failures: nat)
    | Ignored

  datatype Step = Step(store: Store, report: Report)

  // ---------------------------------------------------------------------------------------
  // Invariant

  /** `log` is `prefix` followed by the calls made since. */
  predicate Extends(log: seq<Command>, prefix: seq<Command>) {
    |prefix| <= |log| && log[..|prefix|] == prefix
  }

  /** How many entries of `log` are exactly `cmd`. */
  function Occurrences(log: seq<Command>, cmd: Command): nat {
    if |log| == 0 then 0
    else (if log[0] == cmd then 1 else 0) + Occurrences(log[1..], cmd)
  }

  lemma {:induction false} OccurrencesAppend(a: seq<Command>, b: seq<Command>, cmd: Command)
    ensures Occurrences(a + b, cmd) == Occurrences(a, cmd) + Occurrences(b, cmd)
    decreases |a|
  {
    if |a| == 0 {
      assert a + b == b;
    } else {
      assert (a + b)[1..] == a[1..] + b;
      OccurrencesAppend(a[1..], b, cmd);
    }
  }

  /** What holds in every reachable state: the selection is one of the listed packages, every
      listed package is a record the parser can produce, and every reload is one list call. */
  predicate Valid(s: Store) {
    && (s.selected.Some? ==> s.selected.value in s.packages)
    && (forall k :: 0 <= k < |s.packages| ==> Canonical(s.packages[k]))
    && s.refreshes == Occurrences(s.log, ListUpgrades)
  }

  // ---------------------------------------------------------------------------------------
  // Loading and selecting

  /** `load_data`: list the upgrades again and select the first package, if any. */
  function LoadData(s: Store, env: Env): (t: Store)
    ensures Valid(s) ==> Valid(t)
    ensures t.log == s.log + [ListUpgrades] && t.refreshes == s.refreshes + 1
    ensures Extends(t.log, s.log)
    ensures t.packages == GetUpgradablePackages(env(|s.log|))
    ensures t.selected.Some? <==> |t.packages| > 0
    ensures t.selected.Some? ==> t.selected.value == t.packages[0]
  {
    var pkgs := GetUpgradablePackages(env(|s.log|));
    OccurrencesAppend(s.log, [ListUpgrades], ListUpgrades);
    Store(pkgs, if |pkgs| > 0 then Some(pkgs[0]) else None, s.log + [ListUpgrades], s.refreshes + 1)
  }

  /** The first package whose id is `key`, or `None` when there is none: `next((p for p in packages if p.id == key), None)`. */
  function FindById(pkgs: seq<Package>, key: string): (r: Option<Package>)
    ensures r.None? <==> forall i :: 0 <= i < |pkgs| ==> pkgs[i].id != key
    ensures r.Some? ==>
      exists i :: (0 <= i < |pkgs| && pkgs[i] == r.value && r.value.id == key
        && forall j :: 0 <= j < i ==> pkgs[j].id != key)
  {
    if |pkgs| == 0 then None
    else if pkgs[0].id == key then Some(pkgs[0])
    else
      var r := FindById(pkgs[1..], key);
      assert forall i :: 0 <= i < |pkgs| - 1 ==> pkgs[1..][i] == pkgs[i + 1];
      if r.Some? then
        var i :| 0 <= i < |pkgs[1..]| && pkgs[1..][i] == r.value && r.value.id == key
          && (forall j :: 0 <= j < i ==> pkgs[1..][j].id != key);
        assert pkgs[i + 1] == r.value && forall j :: 0 <= j < i + 1 ==> pkgs[j].id != key;
        r
      else r
  }

  /** `on_data_table_row_selected`: select the first package whose id is the row key. */
  function SelectRow(s: Store, rowKey: string): (t: Store)
    requires Valid(s)
    ensures Valid(t)
    ensures t.packages == s.packages && t.log == s.log && t.refreshes == s.refreshes
    ensures t.selected.Some? ==> t.selected.value.id == rowKey
    ensures t.selected.None? <==> forall i :: 0 <= i < |s.packages| ==> s.packages[i].id != rowKey
    ensures t.selected.Some? ==>
      exists i :: (0 <= i < |s.packages| && s.packages[i] == t.selected.value
        && forall j :: 0 <= j < i ==> s.packages[j].id != rowKey)
  {
    s.(selected := FindById(s.packages, rowKey))
  }

  // ---------------------------------------------------------------------------------------
  // Single-package actions

  /** One `winget` call for one package; the list is reloaded only when the call succeeds. */
  function RunThenReload(s: Store, env: Env, cmd: Command): (r: Step)
    requires Valid(s) && cmd != ListUpgrades
    ensures Valid(r.store)
    ensures r.report == Single(OutcomeOf(env(|s.log|)))
    ensures r.report.outcome == Succeeded ==>
      r.store == LoadData(s.(log := s.log + [cmd]), env)
    ensures r.report.outcome != Succeeded ==> r.store == s.(log := s.log + [cmd])
  {
    var outcome := OutcomeOf(env(|s.log|));
    var called := s.(log := s.log + [cmd]);
    OccurrencesAppend(s.log, [cmd], ListUpgrades);
    assert Valid(called);
    if outcome == Succeeded then Step(LoadData(called, env), Single(outcome))
    else Step(called, Single(outcome))
  }

  /** `action_update_package`: upgrade one package; only a success reloads the list, so a
      failure or a missing tool leaves the packages and the selection as they were. */
  function UpdatePackage(s: Store, env: Env, id: string): (r: Step)
    requires Valid(s)
    ensures Valid(r.store)
    ensures Extends(r.store.log, s.log + [Upgrade(id)])
    ensures r.report == Single(OutcomeOf(env(|s.log|)))
    ensures r.report.outcome != Succeeded ==>
      r.store == s.(log := s.log + [Upgrade(id)])
    ensures r.report.outcome == Succeeded ==>
      r.store == LoadData(s.(log := s.log + [Upgrade(id)]), env)
  {
    RunThenReload(s, env, Upgrade(id))
  }

  /** `action_uninstall_package`: the same contract with the uninstall command. */
  function UninstallPackage(s: Store, env: Env, id: string): (r: Step)
    requires Valid(s)
    ensures Valid(r.store)
    ensures Extends(r.store.log, s.log + [Uninstall(id)])
    ensures r.report == Single(OutcomeOf(env(|s.log|)))
    ensures r.report.outcome != Succeeded ==>
      r.store == s.(log := s.log + [Uninstall(id)])
    ensures r.report.outcome == Succeeded ==>
      r.store == LoadData(s.(log := s.log + [Uninstall(id)]), env)
  {
    RunThenReload(s, env, Uninstall(id))
  }

  // ---------------------------------------------------------------------------------------
  // Upgrade all

  /** The upgrade commands for a list of packages, in list order. */
  function UpgradeCalls(pkgs: seq<Package>): (calls: seq<Command>)
    ensures |calls| == |pkgs|
    ensures forall i :: 0 <= i < |pkgs| ==> calls[i] == Upgrade(pkgs[i].id)
    ensures Occurrences(calls, ListUpgrades) == 0
  {
    if |pkgs| == 0 then []
    else
      var rest := UpgradeCalls(pkgs[1..]);
      OccurrencesAppend([Upgrade(pkgs[0].id)], rest, ListUpgrades);
      [Upgrade(pkgs[0].id)] + rest
  }

  /** How many of the calls numbered `from` to `from + n - 1` ended with `outcome`. */
  function CountOutcome(env: Env, from: nat, n: nat, outcome: CallOutcome): nat
    decreases n
  {
    if n == 0 then 0
    else (if OutcomeOf(env(from)) == outcome then 1 else 0) + CountOutcome(env, from + 1, n - 1, outcome)
  }

  /** None of the calls numbered `from` to `to - 1` found the tool missing. */
  predicate ToolPresent(env: Env, from: nat, to: nat) {
    forall j :: from <= j < to ==> OutcomeOf(env(j)) != ToolNotFound
  }

  /** Where the loop of `action_update_all` stopped: how many calls it counted, its two
      counters, and whether it then returned early because the tool was missing. */
  datatype BatchRun = BatchRun(counted: nat, successes: nat, failures: nat, aborted: bool)

  /** The number of upgrade calls the loop made: the counted ones, and the one that found the
      tool missing, if any. */
  function Made(r: BatchRun): nat {
    r.counted + (if r.aborted then 1 else 0)
  }

  /** The `for` loop of `action_update_all` over the snapshot `pkgs`, whose first call is call
      number `from` of the session: one upgrade call per package, in order, counting successes
      and failures; a missing tool ends the loop at once. Every counted call is a success or a
      failure. */
  function UpgradeLoop(pkgs: seq<Package>, env: Env, from: nat): (r: BatchRun)
    ensures Made(r) <= |pkgs|
    ensures !r.aborted ==> r.counted == |pkgs|
    ensures r.aborted ==> OutcomeOf(env(from + r.counted)) == ToolNotFound
    ensures r.successes + r.failures == r.counted
    decreases |pkgs|
  {
    if |pkgs| == 0 then BatchRun(0, 0, 0, false)
    else
      var outcome := OutcomeOf(env(from));
      if outcome == ToolNotFound then BatchRun(0, 0, 0, true)
      else
        var rest := UpgradeLoop(pkgs[1..], env, from + 1);
        BatchRun(
          rest.counted + 1,
          rest.successes + (if outcome == Succeeded then 1 else 0),
          rest.failures + (if outcome == Failed then 1 else 0),
          rest.aborted)
  }

  /** The loop's counters agree with a count of the call outcomes, and none of the counted calls
      found the tool missing: `success_count` is the number of completed upgrades and
      `failure_count` the number of non-zero exits. */
  lemma {:induction false} UpgradeLoopCounts(pkgs: seq<Package>, env: Env, from: nat)
    ensures var r := UpgradeLoop(pkgs, env, from);
      && r.successes == CountOutcome(env, from, r.counted, Succeeded)
      && r.failures == CountOutcome(env, from, r.counted, Failed)
      && ToolPresent(env, from, from + r.counted)
    decreases |pkgs|
  {
    if |pkgs| > 0 && OutcomeOf(env(from)) != ToolNotFound {
      UpgradeLoopCounts(pkgs[1..], env, from + 1);
    }
  }

  /** The loop runs to its end exactly when none of its calls finds the tool missing. */
  lemma {:induction false} UpgradeLoopCompletes(pkgs: seq<Package>, env: Env, from: nat)
    ensures !UpgradeLoop(pkgs, env, from).aborted <==> ToolPresent(env, from, from + |pkgs|)
  {
    var r := UpgradeLoop(pkgs, env, from);
    UpgradeLoopCounts(pkgs, env, from);
    if r.aborted {
      assert OutcomeOf(env(from + r.counted)) == ToolNotFound;
    }
  }

  /** Calls other than the list call keep the invariant. */
  lemma {:induction false} CallsKeepValid(s: Store, calls: seq<Command>)
    requires Valid(s) && Occurrences(calls, ListUpgrades) == 0
    ensures Valid(s.(log := s.log + calls))
    ensures Extends(s.log + calls, s.log)
  {
    OccurrencesAppend(s.log, calls, ListUpgrades);
    assert (s.log + calls)[..|s.log|] == s.log;
  }

  /** `action_update_all`: nothing happens on an empty list; otherwise every package of a
      snapshot of the list is upgraded in order, and the list is reloaded once at the end
      unless the tool went missing. */
  function UpdateAll(s: Store, env: Env): (r: Step)
    requires Valid(s)
    ensures Valid(r.store)
    ensures Extends(r.store.log, s.log)
    ensures |s.packages| == 0 ==> r == Step(s, NothingToUpdate)
    ensures |s.packages| > 0 ==> r.report.BatchDone? || r.report.BatchAborted?
  {
    if |s.packages| == 0 then Step(s, NothingToUpdate)
    else
      var run := UpgradeLoop(s.packages, env, |s.log|);
      var calls := UpgradeCalls(s.packages[..Made(run)]);
      var called := s.(log := s.log + calls);
      CallsKeepValid(s, calls);
      if run.aborted then Step(called, BatchAborted(run.successes, run.failures))
      else
        var t := LoadData(called, env);
        assert t.log[..|s.log|] == called.log[..|s.log|];
        Step(t, BatchDone(run.successes, run.failures))
  }

  /** A completed batch: one upgrade call per package of the snapshot, in order, then the
      reload, which is one list call; the counters are the numbers of successful and failed
      upgrades. */
  predicate BatchCompleted(s: Store, env: Env, r: Step)
    requires r.report.BatchDone?
  {
    && r.store == LoadData(s.(log := s.log + UpgradeCalls(s.packages)), env)
    && r.report.successes == CountOutcome(env, |s.log|, |s.packages|, Succeeded)
    && r.report.failures == CountOutcome(env, |s.log|, |s.packages|, Failed)
    && r.report.successes + r.report.failures == |s.packages|
  }

  /** An aborted batch: the upgrade calls of the first `n` packages, the last of which found the
      tool missing while none before it did; the counters cover the calls before it; nothing is
      reloaded, so the list and the selection stay as they were. */
  predicate BatchStopped(s: Store, env: Env, r: Step)
    requires r.report.BatchAborted?
  {
    var n := |r.store.log| - |s.log|;
    && 0 < n <= |s.packages|
    && r.store == s.(log := s.log + UpgradeCalls(s.packages[..n]))
    && OutcomeOf(env(|s.log| + n - 1)) == ToolNotFound
    && ToolPresent(env, |s.log|, |s.log| + n - 1)
    && r.report.successes == CountOutcome(env, |s.log|, n - 1, Succeeded)
    && r.report.failures == CountOutcome(env, |s.log|, n - 1, Failed)
    && r.report.successes + r.report.failures == n - 1
  }

  /** The batch runs to its end exactly when none of its calls finds the tool missing. */
  lemma {:induction false} UpdateAllCompletes(s: Store, env: Env)
    requires Valid(s) && |s.packages| > 0
    ensures UpdateAll(s, env).report.BatchDone? <==> ToolPresent(env, |s.log|, |s.log| + |s.packages|)
  {
    UpgradeLoopCompletes(s.packages, env, |s.log|);
  }

  /** What `action_update_all` leaves behind when it runs to the end. */
  lemma {:induction false} UpdateAllCompleted(s: Store, env: Env)
    requires Valid(s) && UpdateAll(s, env).report.BatchDone?
    ensures BatchCompleted(s, env, UpdateAll(s, env))
  {
    UpgradeLoopCounts(s.packages, env, |s.log|);
    assert s.packages[..|s.packages|] == s.packages;
  }

  /** What `action_update_all` leaves behind when the tool goes missing part-way. */
  lemma {:induction false} UpdateAllStopped(s: Store, env: Env)
    requires Valid(s) && UpdateAll(s, env).report.BatchAborted?
    ensures BatchStopped(s, env, UpdateAll(s, env))
  {
    var run := UpgradeLoop(s.packages, env, |s.log|);
    assert run.aborted;
    StoppedRun(s, env, run);
  }

  lemma {:induction false} StoppedRun(s: Store, env: Env, run: BatchRun)
    requires run == UpgradeLoop(s.packages, env, |s.log|) && run.aborted
    ensures BatchStopped(s, env, Step(s.(log := s.log + UpgradeCalls(s.packages[..Made(run)])), BatchAborted(run.successes, run.failures)))
  {
    UpgradeLoopCounts(s.packages, env, |s.log|);
  }

  // ---------------------------------------------------------------------------------------
  // Buttons and events

  const UpdateAllButton := "btn-update-all"
  const RefreshButton := "btn-refresh"
  const UpdateButton := "btn-update"
  const UninstallButton := "btn-uninstall"

  /** `on_button_pressed`: update-all and refresh work without a selection; update and
      uninstall act on the selected package and need one. */
  function PressButton(s: Store, env: Env, button: string): (r: Step)
    requires Valid(s)
    ensures Valid(r.store)
    ensures Extends(r.store.log, s.log)
    ensures button == RefreshButton ==> r.store == LoadData(s, env)
    ensures button == UpdateAllButton ==> r == UpdateAll(s, env)
    ensures button != UpdateAllButton && button != RefreshButton && s.selected.None? ==> r == Step(s, NeedSelection)
    ensures button == UpdateButton && s.selected.Some? ==> r == UpdatePackage(s, env, s.selected.value.id)
    ensures button == UninstallButton && s.selected.Some? ==> r == UninstallPackage(s, env, s.selected.value.id)
  {
    if button == UpdateAllButton then UpdateAll(s, env)
    else if button == RefreshButton then Step(LoadData(s, env), Reloaded)
    else if s.selected.None? then Step(s, NeedSelection)
    else if button == UpdateButton then UpdatePackage(s, env, s.selected.value.id)
    else if button == UninstallButton then UninstallPackage(s, env, s.selected.value.id)
    else Step(s, Ignored)
  }

  /** What the UI delivers to the application. */
  datatype Event = Mount | RowSelected(rowKey: string) | ButtonPressed(buttonId: string)

  function Handle(s: Store, env: Env, e: Event): (t: Store)
    requires Valid(s)
    ensures Valid(t)
    ensures Extends(t.log, s.log)
    ensures e.Mount? ==> t.log == s.log + [ListUpgrades] && t.packages == GetUpgradablePackages(env(|s.log|))
    ensures e.RowSelected? ==> t.log == s.log && t.packages == s.packages
  {
    match e
    case Mount => LoadData(s, env)
    case RowSelected(key) => SelectRow(s, key)
    case ButtonPressed(button) => PressButton(s, env, button).store
  }

  /** A session: the events in order, from a given state. */
  function Run(s: Store, env: Env, events: seq<Event>): (t: Store)
    requires Valid(s)
    ensures Valid(t)
    ensures Extends(t.log, s.log)
    decreases |events|
  {
    if |events| == 0 then s
    else
      var s1 := Handle(s, env, events[0]);
      var t := Run(s1, env, events[1..]);
      assert t.log[..|s.log|] == t.log[..|s1.log|][..|s.log|];
      t
  }

  /** Every session of the application keeps the invariant, starting from its initial state. */
  lemma {:induction false} SessionKeepsInvariant(env: Env, events: seq<Event>)
    ensures Valid(Run(Initial, env, events))
  {
  }
}

=== FILE: text.dfy ===
/**
 The handful of Python `str` operations the parser and the update checker rely on:
 `isspace`, `strip`, `split()` (on runs of whitespace), `split(sep)` and `sep.join`.
 */
module Text {

  /** The 29 code points for which Python's `str.isspace()` holds, listed one by one. */
  const Whitespace: set<char> := {
    '\t', '\n', '\U{b}', '\U{c}', '\r',
    '\U{1c}', '\U{1d}', '\U{1e}', '\U{1f}', ' ',
    '\U{85}', '\U{a0}', '\U{1680}',
    '\U{2000}', '\U{2001}', '\U{2002}', '\U{2003}', '\U{2004}', '\U{2005}',
    '\U{2006}', '\U{2007}', '\U{2008}', '\U{2009}', '\U{200a}',
    '\U{2028}', '\U{2029}', '\U{202f}', '\U{205f}', '\U{3000}'
  }

  /** Python's `str.isspace()` for one code point, as the ranges of the Unicode tables. */
  predicate IsSpace(c: char)
    ensures IsSpace(c) <==> c in Whitespace
  {
    || ('\t' <= c <= '\r')
    || ('\U{1c}' <= c <= ' ')
    || c == '\U{85}' || c == '\U{a0}' || c == '\U{1680}'
    || ('\U{2000}' <= c <= '\U{200a}')
    || c == '\U{2028}' || c == '\U{2029}' || c == '\U{202f}' || c == '\U{205f}' || c == '\U{3000}'
  }

  predicate AllSpace(s: string) {
    forall i :: 0 <= i < |s| ==> IsSpace(s[i])
  }

  predicate NoSpace(s: string) {
    forall i :: 0 <= i < |s| ==> !IsSpace(s[i])
  }

  /** A non-empty run of non-whitespace characters: what `str.split()` yields. */
  predicate Word(s: string) {
    |s| > 0 && NoSpace(s)
  }

  predicate AllWords(ws: seq<string>) {
    forall i :: 0 <= i < |ws| ==> Word(ws[i])
  }

  /** `c * n` in Python: `n` copies of `c`. */
  function Repeat(c: char, n: nat): (r: string)
    ensures |r| == n
    ensures forall i :: 0 <= i < n ==> r[i] == c
  {
    if n == 0 then [] else [c] + Repeat(c, n - 1)
  }

  /** `s.strip()`: whitespace is removed from both ends; the result is empty exactly when `s`
      is all whitespace. */
  function Strip(s: string): (r: string)
    ensures |r| <= |s|
    ensures r == [] <==> AllSpace(s)
    ensures r == [] || (!IsSpace(r[0]) && !IsSpace(r[|r| - 1]))
    decreases |s|
  {
    if |s| > 0 && IsSpace(s[0]) then
      assert forall i :: 0 <= i < |s| - 1 ==> s[1..][i] == s[i + 1];
      Strip(s[1..])
    else if |s| > 0 && IsSpace(s[|s| - 1]) then
      assert forall i :: 0 <= i < |s| - 1 ==> s[..|s| - 1][i] == s[i];
      Strip(s[..|s| - 1])
    else s
  }

  /** `r` sits in `s` at offset `k`, with only whitespace before and after it. */
  predicate MiddleAt(s: string, r: string, k: nat) {
    && k + |r| <= |s|
    && s[k..k + |r|] == r
    && AllSpace(s[..k])
    && AllSpace(s[k + |r|..])
  }

  /** What `strip` removes is whitespace, from the two ends only: the result is the middle of
      `s`, between an all-whitespace prefix and an all-whitespace suffix. */
  lemma {:induction false} StripIsMiddle(s: string)
    ensures exists k :: MiddleAt(s, Strip(s), k)
    decreases |s|
  {
    var r := Strip(s);
    if |s| > 0 && IsSpace(s[0]) {
      var t := s[1..];
      StripIsMiddle(t);
      var k :| MiddleAt(t, r, k);
      MiddleAfterSpace(s, r, k);
    } else if |s| > 0 && IsSpace(s[|s| - 1]) {
      var t := s[..|s| - 1];
      StripIsMiddle(t);
      var k :| MiddleAt(t, r, k);
      MiddleBeforeSpace(s, r, k);
    } else {
      assert MiddleAt(s, r, 0);
    }
  }

  lemma {:induction false} MiddleAfterSpace(s: string, r: string, k: nat)
    requires |s| > 0 && IsSpace(s[0]) && MiddleAt(s[1..], r, k)
    ensures MiddleAt(s, r, k + 1)
  {
    assert s[k + 1..k + 1 + |r|] == s[1..][k..k + |r|] by {
      var a, b := s[k + 1..k + 1 + |r|], s[1..][k..k + |r|];
      assert forall i :: 0 <= i < |r| ==> a[i] == s[k + 1 + i] == b[i];
    }
    assert s[k + 1 + |r|..] == s[1..][k + |r|..];
    assert s[..k + 1] == [s[0]] + s[1..][..k];
  }

  lemma {:induction false} MiddleBeforeSpace(s: string, r: string, k: nat)
    requires |s| > 0 && IsSpace(s[|s| - 1]) && MiddleAt(s[..|s| - 1], r, k)
    ensures MiddleAt(s, r, k)
  {
    var t := s[..|s| - 1];
    assert s[k..k + |r|] == t[k..k + |r|];
    assert s[..k] == t[..k];
    assert s[k + |r|..] == t[k + |r|..] + [s[|s| - 1]];
  }

  /** Stripping a string that neither starts nor ends with whitespace changes nothing. */
  lemma {:induction false} StripUnchanged(s: string)
    requires s == [] || (!IsSpace(s[0]) && !IsSpace(s[|s| - 1]))
    ensures Strip(s) == s
  {
  }

  /** Length of the leading run of non-whitespace characters of `s`. */
  function WordEnd(s: string): (n: nat)
    ensures n <= |s|
    ensures NoSpace(s[..n])
    ensures n < |s| ==> IsSpace(s[n])
  {
    if |s| == 0 || IsSpace(s[0]) then 0 else 1 + WordEnd(s[1..])
  }

  /** `s.split()`: the maximal runs of non-whitespace characters, in order. */
  function Tokens(s: string): (r: seq<string>)
    ensures AllWords(r)
    ensures r == [] <==> AllSpace(s)
    decreases |s|
  {
    if |s| == 0 then []
    else if IsSpace(s[0]) then Tokens(s[1..])
    else
      var n := WordEnd(s);
      [s[..n]] + Tokens(s[n..])
  }

  /** The summed length of some strings. */
  function TotalLength(ws: seq<string>): nat {
    if |ws| == 0 then 0 else |ws[0]| + TotalLength(ws[1..])
  }

  /** `sep.join(ws)`: the pieces in order, with one separator between neighbours. */
  function Join(ws: seq<string>, sep: string): (r: string)
    ensures |ws| > 0 ==> |r| == TotalLength(ws) + (|ws| - 1) * |sep|
  {
    if |ws| == 0 then ""
    else if |ws| == 1 then ws[0]
    else ws[0] + sep + Join(ws[1..], sep)
  }

  /** `s.split(c)` for a one-character separator: never empty, and no piece contains `c`. */
  function Split(s: string, c: char): (r: seq<string>)
    ensures |r| >= 1
    ensures forall i :: 0 <= i < |r| ==> c !in r[i]
  {
    if |s| == 0 then [""]
    else if s[0] == c then [""] + Split(s[1..], c)
    else
      var rest := Split(s[1..], c);
      [[s[0]] + rest[0]] + rest[1..]
  }

  /** A word is a single token. */
  lemma {:induction false} WordEndOfWord(w: string, rest: string)
    requires Word(w)
    requires rest == [] || IsSpace(rest[0])
    ensures WordEnd(w + rest) == |w|
  {
    var s := w + rest;
    assert forall i :: 0 <= i < |w| ==> s[i] == w[i];
    assert |w| < |s| ==> s[|w|] == rest[0];
  }

  /** Splitting single-space-joined words on whitespace gives the words back. */
  lemma {:induction false} TokensOfJoin(ws: seq<string>)
    requires AllWords(ws)
    ensures Tokens(Join(ws, " ")) == ws
    decreases |ws|
  {
    if |ws| == 0 {
    } else if |ws| == 1 {
      WordEndOfWord(ws[0], "");
      assert ws[0][..|ws[0]|] == ws[0];
      assert ws[0][|ws[0]|..] == "";
    } else {
      var w := ws[0];
      var tail := Join(ws[1..], " ");
      var s := Join(ws, " ");
      assert s == w + (" " + tail);
      WordEndOfWord(w, " " + tail);
      assert s[..|w|] == w;
      assert s[|w|..] == " " + tail;
      assert (" " + tail)[1..] == tail;
      TokensOfJoin(ws[1..]);
    }
  }

  /** Whitespace in front of a string produces no token: `split()` skips runs of any length. */
  lemma {:induction false} TokensAfterSpace(sp: string, t: string)
    requires AllSpace(sp)
    ensures Tokens(sp + t) == Tokens(t)
    decreases |sp|
  {
    if |sp| > 0 {
      assert (sp + t)[1..] == sp[1..] + t;
      TokensAfterSpace(sp[1..], t);
    } else {
      assert sp + t == t;
    }
  }

  /** A word followed by whitespace or by nothing is the first token, and splitting resumes
      right after it. */
  lemma {:induction false} TokensOfWordThen(w: string, t: string)
    requires Word(w)
    requires t == [] || IsSpace(t[0])
    ensures Tokens(w + t) == [w] + Tokens(t)
  {
    var s := w + t;
    WordEndOfWord(w, t);
    assert s[0] == w[0];
    assert s[..|w|] == w;
    assert s[|w|..] == t;
  }

  /** Non-empty whitespace runs, as `winget` pads its columns with. */
  predicate Gaps(gaps: seq<string>) {
    forall i :: 0 <= i < |gaps| ==> |gaps[i]| > 0 && AllSpace(gaps[i])
  }

  /** `ws[0] + gaps[0] + ws[1] + ... + gaps[n-2] + ws[n-1]`: words with a whitespace run between
      each pair of neighbours. */
  function Interleave(ws: seq<string>, gaps: seq<string>): (r: string)
    requires |ws| >= 1 && |gaps| == |ws| - 1
  {
    if |ws| == 1 then ws[0] else ws[0] + gaps[0] + Interleave(ws[1..], gaps[1..])
  }

  /** Words separated by whitespace runs, followed by trailing whitespace, split into the words. */
  lemma {:induction false} TokensOfInterleave(ws: seq<string>, gaps: seq<string>, trail: string)
    requires AllSpace(trail)
    requires |ws| >= 1 && AllWords(ws)
    requires |gaps| == |ws| - 1 && Gaps(gaps)
    ensures Tokens(Interleave(ws, gaps) + trail) == ws
    decreases |ws|
  {
    if |ws| == 1 {
      TokensOfWordThen(ws[0], trail);
    } else {
      var tail := Interleave(ws[1..], gaps[1..]) + trail;
      var g := gaps[0];
      assert Interleave(ws, gaps) + trail == ws[0] + (g + tail);
      assert Word(ws[0]) && |g| > 0 && AllSpace(g);
      assert (g + tail)[0] == g[0];
      TokensOfWordThen(ws[0], g + tail);
      TokensAfterSpace(g, tail);
      TailsStayWordsAndGaps(ws, gaps);
      TokensOfInterleave(ws[1..], gaps[1..], trail);
      assert ws == [ws[0]] + ws[1..];
    }
  }

  lemma {:induction false} TailsStayWordsAndGaps(ws: seq<string>, gaps: seq<string>)
    requires |ws| >= 1 && AllWords(ws) && |gaps| >= 1 && Gaps(gaps)
    ensures AllWords(ws[1..]) && Gaps(gaps[1..])
  {
    assert forall i :: 0 <= i < |ws| - 1 ==> ws[1..][i] == ws[i + 1];
    assert forall i :: 0 <= i < |gaps| - 1 ==> gaps[1..][i] == gaps[i + 1];
  }

  /** `split()` gives back the words of a line however its columns are padded: any whitespace
      before, between (at least one character) and after the words. */
  lemma {:induction false} TokensOfPadded(lead: string, ws: seq<string>, gaps: seq<string>, trail: string)
    requires AllSpace(lead) && AllSpace(trail)
    requires |ws| >= 1 && AllWords(ws)
    requires |gaps| == |ws| - 1 && Gaps(gaps)
    ensures Tokens(lead + Interleave(ws, gaps) + trail) == ws
  {
    var body := Interleave(ws, gaps) + trail;
    assert lead + Interleave(ws, gaps) + trail == lead + body;
    TokensAfterSpace(lead, body);
    TokensOfInterleave(ws, gaps, trail);
  }

  /** Joining words with a single space yields a string that starts and ends with a word character. */
  lemma {:induction false} JoinOfWordsEnds(ws: seq<string>)
    requires |ws| >= 1 && AllWords(ws)
    ensures var s := Join(ws, " "); |s| > 0 && !IsSpace(s[0]) && !IsSpace(s[|s| - 1])
    decreases |ws|
  {
    if |ws| > 1 {
      JoinOfWordsEnds(ws[1..]);
    }
  }

  /** The first character of a join is the first character of its first piece. */
  lemma {:induction false} JoinFirst(ws: seq<string>, sep: string)
    requires |ws| >= 1 && |ws[0]| > 0
    ensures |Join(ws, sep)| > 0 && Join(ws, sep)[0] == ws[0][0]
  {
  }

  /** The last character of a join is the last character of its last piece. */
  lemma {:induction false} JoinLast(ws: seq<string>, sep: string)
    requires |ws| >= 1 && |ws[|ws| - 1]| > 0
    ensures var s := Join(ws, sep); var l := ws[|ws| - 1]; |s| > 0 && s[|s| - 1] == l[|l| - 1]
    decreases |ws|
  {
    if |ws| > 1 {
      JoinLast(ws[1..], sep);
    }
  }

  /** A character found in neither the pieces nor the separator is not in the join. */
  lemma {:induction false} JoinAvoids(ws: seq<string>, sep: string, c: char)
    requires c !in sep
    requires forall i :: 0 <= i < |ws| ==> c !in ws[i]
    ensures c !in Join(ws, sep)
    decreases |ws|
  {
    if |ws| > 1 {
      JoinAvoids(ws[1..], sep, c);
    }
  }

  lemma {:induction false} SplitWithout(s: string, c: char)
    requires c !in s
    ensures Split(s, c) == [s]
    decreases |s|
  {
    if |s| > 0 {
      SplitWithout(s[1..], c);
      assert [s[0]] + s[1..] == s;
    }
  }

  /** A separator splits off exactly the piece in front of it. */
  lemma {:induction false} SplitAtFirst(a: string, c: char, b: string)
    requires c !in a
    ensures Split(a + [c] + b, c) == [a] + Split(b, c)
    decreases |a|
  {
    var s := a + [c] + b;
    if |a| == 0 {
      assert s[1..] == b;
    } else {
      assert s[1..] == a[1..] + [c] + b;
      SplitAtFirst(a[1..], c, b);
      assert [a[0]] + a[1..] == a;
    }
  }

  /** `s.split(c)` undoes `c.join(pieces)` when no piece contains `c`. */
  lemma {:induction false} SplitJoin(ws: seq<string>, c: char)
    requires |ws| >= 1
    requires forall i :: 0 <= i < |ws| ==> c !in ws[i]
    ensures Split(Join(ws, [c]), c) == ws
    decreases |ws|
  {
    if |ws| == 1 {
      SplitWithout(ws[0], c);
    } else {
      SplitAtFirst(ws[0], c, Join(ws[1..], [c]));
      SplitJoin(ws[1..], c);
    }
  }

  /** `c.join(s.split(c))` gives back `s`. */
  lemma {:induction false} JoinSplit(s: string, c: char)
    ensures Join(Split(s, c), [c]) == s
    decreases |s|
  {
    if |s| == 0 {
    } else if s[0] == c {
      JoinSplit(s[1..], c);
      assert Join(Split(s, c), [c]) == "" + [c] + Join(Split(s[1..], c), [c]);
    } else {
      var rest := Split(s[1..], c);
      JoinSplit(s[1..], c);
      if |rest| > 1 {
        assert Join(rest, [c]) == rest[0] + [c] + Join(rest[1..], [c]);
        assert Join(Split(s, c), [c]) == ([s[0]] + rest[0]) + [c] + Join(rest[1..], [c]);
      }
    }
  }
}

=== FILE: update_checker.dfy ===
/**
 The release check of `check_for_updates`, after the HTTP request: default and strip the
 release tag, read both versions as tuples of integers, compare them the way Python compares
 tuples, and build the result the UI shows.
 */
module UpdateChecker {
  import opened Wrappers
  import opened Text

  /** What the HTTP request produced: a non-2xx status (`HTTPStatusError`), any other exception
      raised while fetching or decoding the body (with the exception's text), or the release JSON
      object with its `tag_name` field when present. */
  datatype Fetch = HttpStatusError(statusCode: nat) | RequestFailed(detail: string) | Release(tagName: Option<string>)

  /** The dictionary the release check returns: status `update_available`, `latest` or `error`. */
  datatype CheckResult = UpdateAvailable(latestVersion: string) | Latest(latestVersion: string) | CheckFailed(message: string)

  const DefaultTag: string := "v0.0.0"

  // ---------------------------------------------------------------------------------------
  // Tag stripping

  /** `s.lstrip('v')`: every leading `v` goes, not just one. */
  function StripLeadingV(s: string): (r: string)
    ensures |r| <= |s| && s == Repeat('v', |s| - |r|) + r
    ensures r == [] || r[0] != 'v'
  {
    if |s| > 0 && s[0] == 'v' then
      var r := StripLeadingV(s[1..]);
      assert s == [s[0]] + s[1..];
      r
    else s
  }

  // ---------------------------------------------------------------------------------------
  // Version segments: `int()` on a non-empty run of ASCII digits

  predicate IsDigit(c: char) {
    '0' <= c <= '9'
  }

  predicate AllDigits(s: string) {
    forall i :: 0 <= i < |s| ==> IsDigit(s[i])
  }

  /** Decimal value of a digit string, most significant digit first. */
  function DigitsValue(s: string): nat
    requires AllDigits(s)
  {
    if |s| == 0 then 0
    else DigitsValue(s[..|s| - 1]) * 10 + (s[|s| - 1] as int - '0' as int)
  }

  /** `int(segment)` for the segments a version string is made of: defined exactly for
      non-empty digit strings. */
  function ParseSegment(seg: string): (r: Option<nat>)
    ensures r.Some? <==> |seg| > 0 && AllDigits(seg)
  {
    if |seg| > 0 && AllDigits(seg) then Some(DigitsValue(seg)) else None
  }

  /** `str(n)` for a natural number. */
  function ShowNat(n: nat): (s: string)
    ensures |s| > 0 && AllDigits(s)
  {
    if n < 10 then ['0' + n as char]
    else ShowNat(n / 10) + ['0' + (n % 10) as char]
  }

  /** Reading back a rendered number gives the number. */
  lemma {:induction false} SegmentRoundTrip(n: nat)
    ensures ParseSegment(ShowNat(n)) == Some(n)
  {
    var s := ShowNat(n);
    assert s[|s| - 1] as int - '0' as int == n % 10;
    if n >= 10 {
      assert s[..|s| - 1] == ShowNat(n / 10);
      SegmentRoundTrip(n / 10);
      assert DigitsValue(s) == DigitsValue(ShowNat(n / 10)) * 10 + n % 10;
    } else {
      assert s[..|s| - 1] == "";
      assert DigitsValue(s) == DigitsValue("") * 10 + n;
    }
  }

  lemma {:induction false} LeadingZeroValue(seg: string)
    requires AllDigits(seg)
    ensures DigitsValue("0" + seg) == DigitsValue(seg)
    decreases |seg|
  {
    var z := "0" + seg;
    if |seg| == 0 {
      assert z[..0] == "";
    } else {
      assert z[..|z| - 1] == "0" + seg[..|seg| - 1];
      LeadingZeroValue(seg[..|seg| - 1]);
    }
  }

  /** Leading zeros do not change a segment's value, as with Python's `int('007')`. */
  lemma {:induction false} LeadingZeroIgnored(seg: string)
    requires |seg| > 0 && AllDigits(seg)
    ensures ParseSegment("0" + seg) == ParseSegment(seg)
  {
    LeadingZeroValue(seg);
  }

  // ---------------------------------------------------------------------------------------
  // Version tuples

  /** `map(int, segs)` consumed by `tuple(...)`: the first segment that is not an integer stops
      the conversion and is reported. */
  function ParseSegments(segs: seq<string>): (r: Result<seq<nat>, string>)
    ensures r.Success? <==> forall i :: 0 <= i < |segs| ==> ParseSegment(segs[i]).Some?
    ensures r.Success? ==>
      && |r.value| == |segs|
      && (forall i :: 0 <= i < |segs| ==> ParseSegment(segs[i]) == Some(r.value[i]))
    ensures r.Failure? ==>
      exists i :: 0 <= i < |segs| && segs[i] == r.error && ParseSegment(segs[i]).None?
        && (forall j :: 0 <= j < i ==> ParseSegment(segs[j]).Some?)
  {
    if |segs| == 0 then Success([])
    else match ParseSegment(segs[0])
      case None => Failure(segs[0])
      case Some(n) =>
        var rest := ParseSegments(segs[1..]);
        assert forall i :: 0 <= i < |segs| - 1 ==> segs[1..][i] == segs[i + 1];
        match rest
        case Success(t) => Success([n] + t)
        case Failure(bad) =>
          var i :| 0 <= i < |segs[1..]| && segs[1..][i] == bad
            && ParseSegment(segs[1..][i]).None? && forall j :: 0 <= j < i ==> ParseSegment(segs[1..][j]).Some?;
          assert segs[i + 1] == bad && forall j :: 0 <= j < i + 1 ==> ParseSegment(segs[j]).Some?;
          Failure(bad)
  }

  /** Every segment is a non-empty run of ASCII digits. */
  predicate DigitSegments(segs: seq<string>) {
    forall i :: 0 <= i < |segs| ==> |segs[i]| > 0 && AllDigits(segs[i])
  }

  /** The segments convert exactly when each is a non-empty digit string. */
  lemma {:induction false} SegmentsAreDigits(segs: seq<string>)
    ensures ParseSegments(segs).Success? <==> DigitSegments(segs)
  {
    var r := ParseSegments(segs);
    if r.Failure? {
      var i :| 0 <= i < |segs| && segs[i] == r.error && ParseSegment(segs[i]).None?;
      assert !(|segs[i]| > 0 && AllDigits(segs[i]));
    } else {
      forall i | 0 <= i < |segs|
        ensures |segs[i]| > 0 && AllDigits(segs[i])
      {
        assert ParseSegment(segs[i]).Some?;
      }
    }
  }

  /** `tuple(map(int, s.split('.')))`: succeeds exactly when every dot-separated piece is a
      non-empty digit string, giving one value per piece. */
  function ParseVersion(s: string): (r: Result<seq<nat>, string>)
    ensures var segs := Split(s, '.');
      && (r.Success? <==> DigitSegments(segs))
      && (r.Success? ==> |r.value| == |segs| >= 1 && s != "")
      && (r.Failure? ==> r.error in segs && ParseSegment(r.error).None?)
  {
    var segs := Split(s, '.');
    assert s == "" ==> segs == [""];
    SegmentsAreDigits(segs);
    ParseSegments(segs)
  }

  /** The dotted form of a version tuple: `'.'.join(map(str, t))`. */
  function FormatVersion(t: seq<nat>): string {
    Join(MapShow(t), ".")
  }

  function MapShow(t: seq<nat>): (r: seq<string>)
    ensures |r| == |t|
    ensures forall i :: 0 <= i < |t| ==> r[i] == ShowNat(t[i])
  {
    if |t| == 0 then [] else [ShowNat(t[0])] + MapShow(t[1..])
  }

  /** A dotted version read back as a tuple gives the tuple. */
  lemma {:induction false} VersionRoundTrip(t: seq<nat>)
    requires |t| >= 1
    ensures ParseVersion(FormatVersion(t)) == Success(t)
  {
    var segs := MapShow(t);
    forall i | 0 <= i < |segs|
      ensures '.' !in segs[i] && ParseSegment(segs[i]) == Some(t[i])
    {
      SegmentRoundTrip(t[i]);
      assert !IsDigit('.');
    }
    SplitJoin(segs, '.');
    var r := ParseSegments(segs);
    assert r.Success?;
    assert r.value == t;
  }

  /** An empty segment, as in `"1..2"` or a tag that was only `v`s, is never an integer. */
  lemma {:induction false} EmptySegmentFails(s: string)
    requires "" in Split(s, '.')
    ensures ParseVersion(s).Failure?
  {
  }

  // ---------------------------------------------------------------------------------------
  // Python tuple order

  /** `a < b` on Python tuples: the first differing position decides, and a proper prefix is
      smaller. It never holds between equal tuples. */
  predicate TupleLess(a: seq<nat>, b: seq<nat>)
    ensures TupleLess(a, b) ==> a != b
  {
    if |a| == 0 then |b| > 0
    else if |b| == 0 then false
    else if a[0] != b[0] then a[0] < b[0]
    else TupleLess(a[1..], b[1..])
  }

  /** The textbook definition of lexicographic order, as a reference. */
  ghost predicate LexLess(a: seq<nat>, b: seq<nat>) {
    || (exists k :: 0 <= k < |a| && k < |b| && a[..k] == b[..k] && a[k] < b[k])
    || (|a| < |b| && a == b[..|a|])
  }

  /** The recursive comparison is exactly lexicographic order, in both directions. */
  lemma {:induction false} TupleLessIsLexLess(a: seq<nat>, b: seq<nat>)
    ensures TupleLess(a, b) <==> LexLess(a, b)
    decreases |a|
  {
    if |a| == 0 {
      assert a == b[..0];
    } else if |b| == 0 {
    } else if a[0] < b[0] {
      assert a[..0] == b[..0];
    } else if a[0] > b[0] {
      GreaterHeadNotLex(a, b);
    } else {
      TupleLessIsLexLess(a[1..], b[1..]);
      LexLessOfTails(a, b);
      LexLessToTails(a, b);
    }
  }

  /** A larger first element rules out lexicographic precedence. */
  lemma {:induction false} GreaterHeadNotLex(a: seq<nat>, b: seq<nat>)
    requires |a| > 0 && |b| > 0 && a[0] > b[0]
    ensures !LexLess(a, b)
  {
    forall k | 0 <= k < |a| && k < |b| && a[..k] == b[..k]
      ensures a[k] > b[k]
    {
      if k > 0 {
        SameHeads(a, b, k);
        assert false;
      }
    }
    if |a| < |b| && a == b[..|a|] {
      assert false;
    }
  }

  /** With equal first elements, precedence of the tails gives precedence of the tuples. */
  lemma {:induction false} LexLessOfTails(a: seq<nat>, b: seq<nat>)
    requires |a| > 0 && |b| > 0 && a[0] == b[0]
    ensures LexLess(a[1..], b[1..]) ==> LexLess(a, b)
  {
    var a', b' := a[1..], b[1..];
    if LexLess(a', b') {
      if exists k :: 0 <= k < |a'| && k < |b'| && a'[..k] == b'[..k] && a'[k] < b'[k] {
        var k :| 0 <= k < |a'| && k < |b'| && a'[..k] == b'[..k] && a'[k] < b'[k];
        assert a[..k + 1] == [a[0]] + a'[..k];
        assert b[..k + 1] == [b[0]] + b'[..k];
        assert a[k + 1] < b[k + 1];
      } else {
        assert a == [a[0]] + a';
        assert b[..|a|] == [b[0]] + b'[..|a'|];
      }
    }
  }

  /** With equal first elements, precedence of the tuples gives precedence of the tails. */
  lemma {:induction false} LexLessToTails(a: seq<nat>, b: seq<nat>)
    requires |a| > 0 && |b| > 0 && a[0] == b[0]
    ensures LexLess(a, b) ==> LexLess(a[1..], b[1..])
  {
    var a', b' := a[1..], b[1..];
    if LexLess(a, b) {
      if exists k :: 0 <= k < |a| && k < |b| && a[..k] == b[..k] && a[k] < b[k] {
        var k :| 0 <= k < |a| && k < |b| && a[..k] == b[..k] && a[k] < b[k];
        assert k > 0;
        assert a'[..k - 1] == a[..k][1..];
        assert b'[..k - 1] == b[..k][1..];
        assert a'[k - 1] < b'[k - 1];
      } else {
        assert a' == a[1..] == b[..|a|][1..] == b'[..|a'|];
      }
    }
  }

  /** Sequences that agree on a non-empty prefix have the same first element. */
  lemma {:induction false} SameHeads(a: seq<nat>, b: seq<nat>, k: nat)
    requires 0 < k <= |a| && k <= |b| && a[..k] == b[..k]
    ensures a[0] == b[0]
  {
    assert a[0] == a[..k][0];
    assert b[0] == b[..k][0];
  }

  lemma {:induction false} TupleLessIrreflexive(a: seq<nat>)
    ensures !TupleLess(a, a)
    decreases |a|
  {
    if |a| > 0 {
      TupleLessIrreflexive(a[1..]);
    }
  }

  lemma {:induction false} TupleLessTransitive(a: seq<nat>, b: seq<nat>, c: seq<nat>)
    requires TupleLess(a, b) && TupleLess(b, c)
    ensures TupleLess(a, c)
    decreases |a|
  {
    if |a| > 0 && |b| > 0 && |c| > 0 && a[0] == b[0] == c[0] {
      TupleLessTransitive(a[1..], b[1..], c[1..]);
    }
  }

  /** Any two different tuples are ordered one way or the other, and never both. */
  lemma {:induction false} TupleLessTotal(a: seq<nat>, b: seq<nat>)
    ensures a == b || TupleLess(a, b) || TupleLess(b, a)
    ensures !(TupleLess(a, b) && TupleLess(b, a))
    decreases |a|
  {
    if |a| > 0 && |b| > 0 && a[0] == b[0] {
      TupleLessTotal(a[1..], b[1..]);
      if a[1..] == b[1..] {
        assert a == [a[0]] + a[1..] && b == [b[0]] + b[1..];
      }
    }
  }

  /** A proper prefix is smaller: `(1, 2) < (1, 2, 0)`. */
  lemma {:induction false} PrefixIsLess(a: seq<nat>, b: seq<nat>)
    requires |a| < |b| && a == b[..|a|]
    ensures TupleLess(a, b)
    decreases |a|
  {
    if |a| > 0 {
      assert a[0] == b[0];
      assert a[1..] == b[1..][..|a| - 1];
      PrefixIsLess(a[1..], b[1..]);
    }
  }

  // ---------------------------------------------------------------------------------------
  // The release check

  /** `%.200R` in CPython's `int()` message keeps at most 200 characters of the segment's quoted form. */
  const ReprLimit: nat := 200

  /** The catch-all handler's prefix followed by CPython's `int()` message for a bad literal. */
  const LiteralPrefix: string := "Network Error: invalid literal for int() with base 10: "

  /** The quoted segment as `%.200R` shows it: at most `ReprLimit` characters, the closing quote lost first. */
  function Shown(seg: string): (s: string)
    ensures |s| <= ReprLimit
    ensures |seg| + 2 <= ReprLimit ==> s == "'" + seg + "'"
    ensures |seg| + 2 > ReprLimit ==> s == ("'" + seg)[..ReprLimit]
  {
    var quoted := "'" + seg + "'";
    if |quoted| <= ReprLimit then quoted
    else
      assert forall i :: 0 <= i < ReprLimit ==> quoted[i] == ("'" + seg)[i];
      quoted[..ReprLimit]
  }

  /**
   * The message of the `ValueError` raised by `int(seg)`, as the catch-all handler words it: the
   * quoted segment, cut after `ReprLimit` characters, so that a long segment loses its closing quote.
   */
  function InvalidLiteral(seg: string): (m: string)
    ensures "Network Error: " <= m
    ensures |LiteralPrefix| < |m| <= |LiteralPrefix| + ReprLimit
    ensures |seg| + 2 <= ReprLimit ==> |m| >= |seg| + 2 && m[|m| - |seg| - 2..] == "'" + seg + "'"
    ensures |seg| + 2 > ReprLimit ==> m[|LiteralPrefix|..] == ("'" + seg)[..ReprLimit]
  {
    var shown := Shown(seg);
    var m := LiteralPrefix + shown;
    assert "Network Error: " <= LiteralPrefix;
    assert m[..|LiteralPrefix|] == LiteralPrefix;
    assert m[|LiteralPrefix|..] == shown;
    m
  }

  /** The rest of the `try` block once the tag is stripped: both versions are parsed, the running
      one first, and the first segment that is not an integer fails the check; otherwise the
      result follows the tuple order, with the stripped tag. */
  function CompareVersions(currentVersion: string, latestTag: string): (r: CheckResult)
    ensures var current, latest := ParseVersion(currentVersion), ParseVersion(latestTag);
      && (r.CheckFailed? <==> current.Failure? || latest.Failure?)
      && (r.CheckFailed? ==> r.message == InvalidLiteral(if current.Failure? then current.error else latest.error))
      && (!r.CheckFailed? ==> r.latestVersion == latestTag)
      && (!r.CheckFailed? ==> (r.UpdateAvailable? <==> LexLess(current.value, latest.value)))
  {
    match ParseVersion(currentVersion)
    case Failure(seg) => CheckFailed(InvalidLiteral(seg))
    case Success(current) =>
      match ParseVersion(latestTag)
      case Failure(seg) => CheckFailed(InvalidLiteral(seg))
      case Success(latest) =>
        TupleLessIsLexLess(current, latest);
        if TupleLess(current, latest) then UpdateAvailable(latestTag) else Latest(latestTag)
  }

  /** `check_for_updates` once the request has completed. */
  function CheckForUpdates(currentVersion: string, fetch: Fetch): (r: CheckResult)
    ensures fetch.HttpStatusError? ==>
      r == CheckFailed("Could not reach GitHub API. Status: " + ShowNat(fetch.statusCode))
    ensures fetch.RequestFailed? ==> r == CheckFailed("Network Error: " + fetch.detail)
    ensures fetch.Release? && !r.CheckFailed? ==>
      var tag := fetch.tagName.GetOr(DefaultTag);
      && |r.latestVersion| <= |tag|
      && tag == Repeat('v', |tag| - |r.latestVersion|) + r.latestVersion
      && (r.latestVersion == [] || r.latestVersion[0] != 'v')
    ensures fetch.Release? ==>
      var current, latest := ParseVersion(currentVersion), ParseVersion(StripLeadingV(fetch.tagName.GetOr(DefaultTag)));
      && (r.CheckFailed? <==> current.Failure? || latest.Failure?)
      && (r.CheckFailed? ==> r.message == InvalidLiteral(if current.Failure? then current.error else latest.error))
      && (!r.CheckFailed? ==> (r.UpdateAvailable? <==> LexLess(current.value, latest.value)))
    ensures r.CheckFailed? && !fetch.HttpStatusError? ==> "Network Error: " <= r.message
    ensures r.CheckFailed? ==> |r.message| > 0
  {
    match fetch
    case HttpStatusError(code) => CheckFailed("Could not reach GitHub API. Status: " + ShowNat(code))
    case RequestFailed(detail) =>
      assert ("Network Error: " + detail)[..15] == "Network Error: ";
      CheckFailed("Network Error: " + detail)
    case Release(tagName) => CompareVersions(currentVersion, StripLeadingV(tagName.GetOr(DefaultTag)))
  }

  /** The outcome follows the tuple order: an update is offered exactly when the released tuple
      is greater, and equal or older releases report the running version as the latest. */
  lemma {:induction false} CompareReleases(current: seq<nat>, latest: seq<nat>, vs: nat)
    requires |current| >= 1 && |latest| >= 1
    ensures var tag := Repeat('v', vs) + FormatVersion(latest);
      CheckForUpdates(FormatVersion(current), Release(Some(tag)))
        == if TupleLess(current, latest) then UpdateAvailable(FormatVersion(latest))
           else Latest(FormatVersion(latest))
  {
    var l := FormatVersion(latest);
    VersionRoundTrip(current);
    VersionRoundTrip(latest);
    StripVs(vs, l);
  }

  /** `lstrip('v')` removes any number of leading `v`s in front of a string that does not start with `v`. */
  lemma {:induction false} StripVs(n: nat, rest: string)
    requires rest == [] || rest[0] != 'v'
    ensures StripLeadingV(Repeat('v', n) + rest) == rest
  {
    if n > 0 {
      assert (Repeat('v', n) + rest)[1..] == Repeat('v', n - 1) + rest;
      StripVs(n - 1, rest);
    }
  }

  /** Equal versions report `latest`. */
  lemma {:induction false} SameVersionIsLatest(v: seq<nat>)
    requires |v| >= 1
    ensures CheckForUpdates(FormatVersion(v), Release(Some("v" + FormatVersion(v)))) == Latest(FormatVersion(v))
  {
    CompareReleases(v, v, 1);
    TupleLessIrreflexive(v);
  }

  /** Python tuple order in action: `(1, 2) < (1, 2, 0)`, so release `v1.2.0` is an update
      for a running `1.2`. */
  lemma {:induction false} LongerReleaseIsNewer()
    ensures CheckForUpdates("1.2", Release(Some("v1.2.0"))) == UpdateAvailable("1.2.0")
  {
    assert MapShow([1, 2]) == ["1", "2"];
    assert MapShow([1, 2, 0]) == ["1", "2", "0"];
    assert Join(["2", "0"], ".") == "2.0";
    assert FormatVersion([1, 2]) == "1.2";
    assert FormatVersion([1, 2, 0]) == "1.2.0";
    CompareReleases([1, 2], [1, 2, 0], 1);
    PrefixIsLess([1, 2], [1, 2, 0]);
  }

  /** A release without a tag reads as `v0.0.0`. */
  lemma {:induction false} MissingTagIsZero(currentVersion: string)
    ensures CheckForUpdates(currentVersion, Release(None)) == CheckForUpdates(currentVersion, Release(Some(DefaultTag)))
  {
  }

  /** A version string with a segment that is not an integer makes the release check fail, never raise. */
  lemma {:induction false} MalformedVersionFails(currentVersion: string, tag: string)
    requires ParseVersion(currentVersion).Failure? || ParseVersion(StripLeadingV(tag)).Failure?
    ensures CheckForUpdates(currentVersion, Release(Some(tag))).CheckFailed?
  {
  }
}

=== FILE: upgrade_parser.dfy ===
/**
 The `winget upgrade` table parser: the text-processing part of `get_upgradable_packages`.
 The tool's standard output is cut into lines, everything up to the first line that is
 exactly the column-header underline is ignored, and every later line with at least five
 whitespace-separated tokens becomes one `Package`, its fields anchored from the right.
 */
module UpgradeParser {
  import opened Wrappers
  import opened Text
  import opened Collections

  /** One row of the upgrade table. */
  datatype Package = Package(name: string, id: string, version: string, availableVersion: string, source: string)

  /** What running `winget upgrade` produced: its captured standard output, a non-zero exit
      (`CalledProcessError`, with the captured standard error) or a missing executable
      (`FileNotFoundError`). */
  datatype ToolOutput = Completed(stdout: string) | CalledProcessError(stderr: string) | FileNotFound

  /** The column-header underline that separates the table header from its rows:
      exactly 119 dashes. */
  const Separator: string := Repeat('-', 119)

  /** Python's `list.index`: the position of the first occurrence of `x`, if any. */
  function IndexOf<T(==)>(xs: seq<T>, x: T): (r: Option<nat>)
    ensures r.None? <==> x !in xs
    ensures r.Some? ==> r.value < |xs| && xs[r.value] == x && x !in xs[..r.value]
  {
    if |xs| == 0 then None
    else if xs[0] == x then Some(0)
    else match IndexOf(xs[1..], x)
      case None => None
      case Some(i) =>
        assert xs[..i + 1] == [xs[0]] + xs[1..][..i];
        Some(i + 1)
  }

  /** A record the parser could have produced: its name is single-space-joined words and its
      four right-hand fields are words. */
  predicate Canonical(p: Package) {
    && |Tokens(p.name)| >= 1
    && Join(Tokens(p.name), " ") == p.name
    && Word(p.id) && Word(p.version) && Word(p.availableVersion) && Word(p.source)
  }

  /** The tokens a record occupies on its line: the name's words, then the four fixed columns. */
  function RowTokens(p: Package): seq<string> {
    Tokens(p.name) + [p.id, p.version, p.availableVersion, p.source]
  }

  /** The record for a line's tokens: the last four are the fixed columns, read from the right,
      and the name is the single-space join of the tokens in front of them. */
  function RecordOf(parts: seq<string>): (p: Package)
    requires |parts| >= 5 && AllWords(parts)
    ensures Canonical(p) && RowTokens(p) == parts
  {
    var k := |parts| - 4;
    var words := parts[..k];
    JoinOfWordsEnds(words);
    StripUnchanged(Join(words, " "));
    TokensOfJoin(words);
    assert parts == words + parts[k..];
    Package(
      name := Strip(Join(words, " ")),
      id := parts[k],
      version := parts[k + 1],
      availableVersion := parts[k + 2],
      source := parts[k + 3])
  }

  /** One table line: blank lines and lines with fewer than five tokens give no record. */
  function ParseLine(line: string): (r: Option<Package>)
    ensures r.Some? <==> |Tokens(line)| >= 5
    ensures r.Some? ==> Canonical(r.value) && RowTokens(r.value) == Tokens(line)
  {
    if Strip(line) == "" then None
    else
      var parts := Tokens(line);
      if |parts| >= 5 then Some(RecordOf(parts)) else None
  }

  /** The loop over the lines after the separator: one record per line that has one, in order. */
  function ParseRows(lines: seq<string>): (r: seq<Package>)
    ensures |r| <= |lines|
    ensures r == [] <==> forall i :: 0 <= i < |lines| ==> |Tokens(lines[i])| < 5
    ensures forall k :: 0 <= k < |r| ==> Canonical(r[k])
  {
    var r := FilterMap(ParseLine, lines);
    assert forall k :: 0 <= k < |r| ==> Canonical(r[k]) by {
      forall k | 0 <= k < |r|
        ensures Canonical(r[k])
      {
        FilterMapOrigin(ParseLine, lines, k);
      }
    }
    r
  }

  /** The table body starts after the first separator line; without one there are no rows. */
  function ParseLines(lines: seq<string>): (r: seq<Package>)
    ensures Separator !in lines ==> r == []
  {
    match IndexOf(lines, Separator)
    case None => []
    case Some(i) => ParseRows(lines[i + 1..])
  }

  /** `result.stdout.strip().split('\n')`, then the table: blank output has no table. */
  function ParseOutput(stdout: string): (r: seq<Package>)
    ensures AllSpace(stdout) ==> r == []
    ensures forall k :: 0 <= k < |r| ==> Canonical(r[k])
  {
    var lines := Split(Strip(stdout), '\n');
    assert AllSpace(stdout) ==> lines == [""] && Separator != "";
    ParseLines(lines)
  }

  /** `get_upgradable_packages`: both failures of the tool give an empty list. */
  function GetUpgradablePackages(out: ToolOutput): (r: seq<Package>)
    ensures !out.Completed? ==> r == []
    ensures forall k :: 0 <= k < |r| ==> Canonical(r[k])
  {
    match out
    case Completed(stdout) => ParseOutput(stdout)
    case CalledProcessError(_) => []
    case FileNotFound => []
  }

  // ---------------------------------------------------------------------------------------
  // Properties of the parser

  /** Only the first separator counts, and nothing in front of it is ever parsed. */
  lemma {:induction false} FirstSeparatorStartsBody(header: seq<string>, body: seq<string>)
    requires Separator !in header
    ensures ParseLines(header + [Separator] + body) == ParseRows(body)
  {
    var lines := header + [Separator] + body;
    assert forall j :: 0 <= j < |header| ==> lines[j] == header[j];
    assert lines[|header|] == Separator;
    assert forall m :: |header| < m <= |lines| ==> lines[..m][|header|] == Separator;
    assert IndexOf(lines, Separator) == Some(|header|);
    assert lines[|header| + 1..] == body;
  }

  /** Rows come out in the order of their lines: the body parser distributes over concatenation. */
  lemma {:induction false} ParseRowsAppend(a: seq<string>, b: seq<string>)
    ensures ParseRows(a + b) == ParseRows(a) + ParseRows(b)
  {
    FilterMapAppend(ParseLine, a, b);
  }

  /** A single line yields exactly one record when it has at least five tokens, and none otherwise. */
  lemma {:induction false} ParseRowsSingle(line: string)
    ensures |Tokens(line)| >= 5 ==> ParseRows([line]) == [ParseLine(line).value]
    ensures |Tokens(line)| < 5 ==> ParseRows([line]) == []
  {
    FilterMapSingle(ParseLine, line);
  }

  /** Blank and whitespace-only lines produce no record. */
  lemma {:induction false} BlankLineSkipped(line: string)
    requires AllSpace(line)
    ensures ParseRows([line]) == []
  {
    ParseRowsSingle(line);
  }

  /** Fields are anchored from the right; the name is the single-space join of what is left. */
  lemma {:induction false} FieldsFromTheRight(line: string)
    requires |Tokens(line)| >= 5
    ensures var t := Tokens(line); var n := |t|; var p := ParseLine(line).value;
      && p.source == t[n - 1] && p.availableVersion == t[n - 2]
      && p.version == t[n - 3] && p.id == t[n - 4]
      && p.name == Join(t[..n - 4], " ") && p.name != ""
  {
    var t := Tokens(line);
    var n := |t|;
    var p := ParseLine(line).value;
    assert RowTokens(p) == t;
    assert Tokens(p.name) == t[..n - 4];
    assert Join(Tokens(p.name), " ") == p.name;
    assert Tokens(p.name) != [];
  }

  /** Every record comes from one line of the body. */
  lemma {:induction false} RecordsComeFromLines(lines: seq<string>, k: nat)
    requires k < |ParseRows(lines)|
    ensures exists i :: 0 <= i < |lines| && ParseLine(lines[i]) == Some(ParseRows(lines)[k])
  {
    FilterMapOrigin(ParseLine, lines, k);
  }

  // ---------------------------------------------------------------------------------------
  // Round trips through a formatted table

  /** A table line for a record: its name's words and the four fields, single-space separated. */
  function FormatRow(p: Package): string {
    Join(RowTokens(p), " ")
  }

  /** A line whose tokens are some name words followed by four fields parses to exactly those. */
  lemma {:induction false} ParseLineByTokens(line: string, words: seq<string>, id: string, version: string, available: string, source: string)
    requires |words| >= 1
    requires Tokens(line) == words + [id, version, available, source]
    ensures ParseLine(line) == Some(Package(Join(words, " "), id, version, available, source))
  {
    var p := ParseLine(line).value;
    assert Tokens(p.name) + [p.id, p.version, p.availableVersion, p.source] == words + [id, version, available, source];
    assert Tokens(p.name) == words;
  }

  /** A line of single-space-separated words, the last four being the fixed columns, parses back
      to the joined leading words and those four fields. */
  lemma {:induction false} LineRoundTrip(words: seq<string>, id: string, version: string, available: string, source: string)
    requires |words| >= 1 && AllWords(words)
    requires Word(id) && Word(version) && Word(available) && Word(source)
    ensures ParseLine(Join(words + [id, version, available, source], " "))
         == Some(Package(Join(words, " "), id, version, available, source))
  {
    var ws := words + [id, version, available, source];
    assert AllWords(ws) by {
      assert forall i :: 0 <= i < |words| ==> ws[i] == words[i];
    }
    assert Tokens(Join(ws, " ")) == ws by {
      TokensOfJoin(ws);
    }
    ParseLineByTokens(Join(ws, " "), words, id, version, available, source);
  }

  /** A row as the tool prints it, with its columns padded by whitespace runs of any length and
      whitespace around the line, parses to the four fields and to the name words joined by
      single spaces: padding inside a name is not preserved. */
  lemma {:induction false} PaddedLineRoundTrip(lead: string, words: seq<string>, id: string, version: string, available: string, source: string, gaps: seq<string>, trail: string)
    requires AllSpace(lead) && AllSpace(trail)
    requires |words| >= 1 && AllWords(words)
    requires Word(id) && Word(version) && Word(available) && Word(source)
    requires |gaps| == |words| + 3 && Gaps(gaps)
    ensures ParseLine(lead + Interleave(words + [id, version, available, source], gaps) + trail)
         == Some(Package(Join(words, " "), id, version, available, source))
  {
    var ws := words + [id, version, available, source];
    assert AllWords(ws) by {
      assert forall i :: 0 <= i < |words| ==> ws[i] == words[i];
    }
    TokensOfPadded(lead, ws, gaps, trail);
    ParseLineByTokens(lead + Interleave(ws, gaps) + trail, words, id, version, available, source);
  }

  /** Every record the parser can produce is reproduced from its formatted line. */
  lemma {:induction false} RowRoundTrip(p: Package)
    requires Canonical(p)
    ensures ParseLine(FormatRow(p)) == Some(p)
  {
    LineRoundTrip(Tokens(p.name), p.id, p.version, p.availableVersion, p.source);
  }

  /** One formatted line per record, in order. */
  function FormatRows(pkgs: seq<Package>): (rows: seq<string>)
    ensures |rows| == |pkgs|
    ensures forall i :: 0 <= i < |pkgs| ==> rows[i] == FormatRow(pkgs[i])
  {
    if |pkgs| == 0 then [] else [FormatRow(pkgs[0])] + FormatRows(pkgs[1..])
  }

  /** `winget upgrade` output: header lines, the separator, then one formatted line per record. */
  function RenderTable(header: seq<string>, pkgs: seq<Package>): string {
    Join(header + [Separator] + FormatRows(pkgs), "\n")
  }

  /** Parsing the formatted lines of records the parser could have produced gives them back. */
  lemma {:induction false} ParseFormattedRows(pkgs: seq<Package>)
    requires forall k :: 0 <= k < |pkgs| ==> Canonical(pkgs[k])
    ensures ParseRows(FormatRows(pkgs)) == pkgs
  {
    var rows := FormatRows(pkgs);
    forall k | 0 <= k < |pkgs|
      ensures ParseLine(rows[k]) == Some(pkgs[k])
    {
      RowRoundTrip(pkgs[k]);
    }
    FilterMapAllSome(ParseLine, rows, pkgs);
  }

  /** A formatted line is non-empty, ends in a word character and holds no line break. */
  lemma {:induction false} FormattedRowShape(p: Package)
    requires Canonical(p)
    ensures RowShape(FormatRow(p))
  {
    var ws := RowTokens(p);
    JoinOfWordsEnds(ws);
    assert forall i :: 0 <= i < |ws| ==> '\n' !in ws[i] by {
      forall i | 0 <= i < |ws|
        ensures '\n' !in ws[i]
      {
        assert Word(ws[i]);
        assert IsSpace('\n');
      }
    }
    JoinAvoids(ws, " ", '\n');
  }

  predicate RowShape(s: string) {
    |s| > 0 && !IsSpace(s[|s| - 1]) && '\n' !in s
  }

  /** Header, separator and rows that hold no line break, with the text starting and ending on a
      non-whitespace character. */
  lemma {:induction false} TableLinesShape(header: seq<string>, rows: seq<string>)
    requires forall i :: 0 <= i < |header| ==> '\n' !in header[i]
    requires header == [] || (|header[0]| > 0 && !IsSpace(header[0][0]))
    requires forall k :: 0 <= k < |rows| ==> RowShape(rows[k])
    ensures var lines := header + [Separator] + rows;
      && (forall i :: 0 <= i < |lines| ==> '\n' !in lines[i])
      && |lines[0]| > 0 && !IsSpace(lines[0][0])
      && var last := lines[|lines| - 1]; |last| > 0 && !IsSpace(last[|last| - 1])
  {
    var lines := header + [Separator] + rows;
    forall i | 0 <= i < |lines|
      ensures '\n' !in lines[i]
    {
      if i < |header| {
        assert lines[i] == header[i];
      } else if i > |header| {
        assert lines[i] == rows[i - |header| - 1];
      }
    }
    if |rows| > 0 {
      assert lines[|lines| - 1] == rows[|rows| - 1];
    }
  }

  /** A whole table round-trips: parsing the rendered output of the tool gives back the records. */
  lemma {:induction false} TableRoundTrip(header: seq<string>, pkgs: seq<Package>)
    requires forall i :: 0 <= i < |header| ==> '\n' !in header[i] && header[i] != Separator
    requires header == [] || (|header[0]| > 0 && !IsSpace(header[0][0]))
    requires forall k :: 0 <= k < |pkgs| ==> Canonical(pkgs[k])
    ensures GetUpgradablePackages(Completed(RenderTable(header, pkgs))) == pkgs
  {
    var rows := FormatRows(pkgs);
    var lines := header + [Separator] + rows;
    var text := Join(lines, "\n");
    forall k | 0 <= k < |pkgs|
      ensures RowShape(rows[k])
    {
      FormattedRowShape(pkgs[k]);
    }
    TableLinesShape(header, rows);
    JoinFirst(lines, "\n");
    JoinLast(lines, "\n");
    StripUnchanged(text);
    SplitJoin(lines, '\n');
    assert Separator !in header;
    FirstSeparatorStartsBody(header, rows);
    ParseFormattedRows(pkgs);
  }
}

=== FILE: wrappers.dfy ===
/** Optional values and results shared by the parser, the update checker and the store. */
module Wrappers {

  /** An optional value: Python's `Optional[T]`, with `None` for a missing value. */
  datatype Option<+T> = None | Some(value: T) {

    /** The wrapped value, or `default` when there is none (Python's `dict.get(key, default)`). */
    function GetOr(default: T): (r: T)
      ensures Some? ==> r == value
      ensures None? ==> r == default
    {
      match this
      case Some(v) => v
      case None => default
    }
  }

  /** Either a computed value or the reason it could not be computed. */
  datatype Result<+R, +E> = Success(value: R) | Failure(error: E)
}
